=== FILE: README.md ===
# Battleship core: players, points, shots and the turn loop

This project models the game engine of the console battleship game
`batalha_naval` in Dafny and proves properties of it. The model covers:

- the per-player counters of `battleship.core.Player`: score, wrong attempts,
  hits received, fleet cells and the turn flag;
- the grid cell `battleship.core.Point`, with its one-way flags and its
  `toString`;
- the shooting step `Game.shoot`, the swap of both turns, the fleet sequence
  of `createAllBoats` and the retry rule of `createBoat`;
- the outer loop of `Main.main`: the first turn, the choice of shooter, the
  loop condition and the winner announcement.

The game's `Board` is not part of this model. Its answers are inputs:

- a shot is answered `Hit`, `Miss` or `ShotThrew(InvalidShotPosition | ShootedPoint)`;
- a placement is answered `Placed(ok)` or `PlaceThrew(InvalidPosition | ArrayIndexOutOfBounds | AlreadyHaveBoat)`.

Everything the console would read becomes a finite script. The script holds
the board's answers to successive shots, or the coordinates, orientation and
answer of successive placement attempts. When a script runs out before the
Java loop would have ended, the result is an "awaiting input" value
(`AwaitingShot`, `AwaitingPlacement`, `AwaitingSetup`, `Unfinished`,
`AwaitingInput`). Each recursion either consumes at least one script entry
or, in `CreateAllBoats`, moves on to the next boat of the fleet, so
every function terminates without a fuel bound.

Modules, one file each:

- `Wrappers`: `Option`.
- `Decimal`: Java's decimal rendering of an `int`, plus a parser as its
  partner.
- `Points`: `Point`, its constructors and mutators, and `toString`.
- `Boats`: boat kinds and their sizes.
- `Board`: the board's answers.
- `Players`: `Player`, its constructor and counter updates, and `addBoat`.
- `Game`: `swapBothTurns`, `shoot`, `createBoat` and `createAllBoats`.
- `Match`: the turn loop of `main` and the announcement.

Every Java mutator becomes a pure function that returns the updated value.
The frame of each one ("nothing else changes") is stated with an
`AgreeExcept` predicate.

## Model

| member | source | states |
|---|---|---|
| Players.NewPlayer | src/battleship/core/Player.java:94-102 | A new player keeps the given name. Score, wrong attempts, hits received and fleet cells are all zero, and the player does not hold the turn. |
| Players.IncrementScore | src/battleship/core/Player.java:111-118 | With no wrong attempt, the score grows by exactly 1000. With k > 0 wrong attempts, the gain q is the floor of 1000 / k, pinned down by q·k ≤ 1000 < (q+1)·k. The gain always lies between 0 and 1000, and no other field changes. |
| Players.MoreMissesSmallerReward | src/battleship/core/Player.java:111-118 | Counting more misses before a hit never raises what the hit earns. |
| Players.IncrementWrongAttempts | src/battleship/core/Player.java:127 | Adds exactly one wrong attempt. Score, turn, hits, fleet cells and name are unchanged. |
| Players.IncrementWrongAttemptsTimes | src/battleship/core/Player.java:127 | k misses in a row add exactly k wrong attempts and change nothing else. |
| Players.ResetWrongAttempts | src/battleship/core/Player.java:136 | Sets wrong attempts to zero and changes nothing else. |
| Players.ResetForgetsMisses | src/battleship/core/Player.java:127-136 | After a reset, the player is the same however many misses were counted before it. |
| Players.IncrementHitBoatsPoints | src/battleship/core/Player.java:145 | Adds exactly one hit received and changes nothing else. |
| Players.SwapTurn | src/battleship/core/Player.java:154 | Negates the turn flag and changes nothing else. |
| Players.SwapTurnInvolution | src/battleship/core/Player.java:154 | Swapping twice gives back the original player. |
| Players.AddBoat | src/battleship/core/Player.java:237-243 | The boat's size is added to the fleet cells whenever the board returns, whether it returns true or false, and the returned boolean is passed on. When the board throws, the same exception comes out and no counter is touched. |
| Points.NewPoint | src/battleship/core/Point.java:86-94 | The point has the given coordinates, no flag raised and no orientation. |
| Points.Origin | src/battleship/core/Point.java:103-111 | The no-argument point is (0, 0), with no flag raised and no orientation. |
| Points.SetX | src/battleship/core/Point.java:122 | Sets x. y, every flag and the orientation are unchanged. |
| Points.SetY | src/battleship/core/Point.java:133 | Sets y. x, every flag and the orientation are unchanged. |
| Points.Occupy | src/battleship/core/Point.java:162 | Raises the occupied flag and changes nothing else. |
| Points.MarkShot | src/battleship/core/Point.java:171 | Raises the shot flag and changes nothing else. |
| Points.SetEdge | src/battleship/core/Point.java:180 | Raises the edge flag and changes nothing else. |
| Points.SetFirst | src/battleship/core/Point.java:189 | Raises the first flag and changes nothing else. |
| Points.SetOrientation | src/battleship/core/Point.java:198 | Sets the orientation (possibly to null) and changes nothing else. |
| Points.ApplyIdempotent | src/battleship/core/Point.java:122-198 | Calling any mutator a second time with the same argument changes nothing. |
| Points.FlagsNeverCleared | src/battleship/core/Point.java:162-189 | For any sequence of mutator calls, a flag that was raised is still raised. |
| Points.FlagRaisedOnlyBySetter | src/battleship/core/Point.java:162-189 | A flag that was down can end up raised only if the setter named after it was among the calls. |
| Points.ToString | src/battleship/core/Point.java:264-267 | The text is exactly "(", Java's rendering of x, ", ", Java's rendering of y, ")". Reading it back with the parser `ParsePoint` recovers exactly the point's x and y. |
| Decimal.IntToString | src/battleship/core/Point.java:266 | An int is rendered in Java's form: a minus sign exactly for negative values, then at least one digit with no leading zero unless the value is 0. Parsing the rendering gives back the int. |
| Decimal.CanonicalIsRendering | src/battleship/core/Point.java:266 | Every literal in that form is the rendering of the int it parses to, so each int has exactly one rendering in Java's form. |
| Decimal.ValueOfNatToString | src/battleship/core/Point.java:266 | The digits rendered for a natural number have that number as their value. |
| Game.SwapBothTurns | src/battleship/Game.java:123-127 | Every player of the list flips its turn flag, and nothing else about any player changes. |
| Game.SwapBothTurnsPassesTurn | src/battleship/Game.java:123-127 | If exactly one of two players held the turn, then afterwards exactly the other one holds it. |
| Game.ShootOnce | src/battleship/Game.java:349-397 | A rejected shot changes nothing and the same shooter fires again. A miss adds one wrong attempt to the shooter, swaps both turns and ends the call, leaving scores and hits unchanged. A hit adds one hit to the defender, pays the shooter what incrementScore pays on the pre-reset counter, then resets the wrong attempts, and keeps the turns. After a hit the call ends exactly when the defender's hits equal its fleet cells. |
| Game.HitPaysForMissesBeforeReset | src/battleship/Game.java:383-391 | With two or more misses behind it, a hit pays 1000 / misses. That is strictly less than resetting first would have paid. |
| Game.Shoot | src/battleship/Game.java:340-398 | A call that returns consumes at least one answer, and no answer before its last one is a miss. A call still awaiting input has seen no miss. |
| Game.ShootStopsByMiss | src/battleship/Game.java:371-381 | Whenever the script holds a miss, the call returns, at that shot or before it. |
| Game.ShootInvariant | src/battleship/Game.java:340-398 | Names and the defender's score, wrong attempts and fleet are kept, and the shooter's score never falls. Turns are swapped exactly when the call ends on a miss. A call ending on a hit has sunk the fleet. A fleet that was afloat and not sunk is still afloat. |
| Game.HitsSinkFleet | src/battleship/Game.java:383-397 | One hit per unhit fleet cell sinks the defender in a single call, without swapping turns. |
| Game.FleetOrder | src/battleship/Game.java:296-306 | The fleet is placed in the order LARGE, BIG twice, MEDIUM three times, SMALL four times. |
| Game.FleetOrderedBySize | src/battleship/Game.java:296-306 | The boats come in order of non-increasing size. |
| Game.FleetComposition | src/battleship/Game.java:296-306 | The fleet has ten boats and twenty cells. |
| Game.PlacementPrompts | src/battleship/Game.java:230-267 | Each attempt asks for x, then y, and asks for an orientation exactly when the boat is longer than one cell. `CreateBoat` relies on this through `Game.BuildBoat`, which reads an attempt's orientation only for such boats. |
| Game.BuildBoat | src/battleship/Game.java:224-267 | The boat is anchored at a blank point carrying the typed coordinates. It has an orientation exactly when its size is not 1, and then it is the one typed. |
| Game.CreateBoat | src/battleship/Game.java:221-285 | Attempts are consumed until the first one the board accepts with true, and the boat is built from that attempt. Every attempt the board answered with false also added the boat's size, so the cells grow by size × (1 + the number of false answers). Only the fleet cells change. When the script runs out, no attempt was accepted. |
| Game.CreateBoatStopsAtFirstAccepted | src/battleship/Game.java:269-281 | When the script holds an attempt the board accepts with true, the boat is created and the call stops right after the first such attempt. |
| Game.CreateAllBoats | src/battleship/Game.java:296-309 | Boats are placed in fleet order: the script splits into one segment per boat, each ending at the boat's first accepted attempt. Only the fleet cells change. Each boat adds its size once, plus once more for every false answer in its own segment. So the cells grow by at least the fleet's total size, and by exactly that when no answer was false. |
| Game.SegmentCellsBounds | src/battleship/Game.java:296-309 | The segments fit in the script. The cells they add are at least the fleet's total size, and exactly that when no answer in them was false. |
| Game.PlacedInOrderUnique | src/battleship/Game.java:269-306 | The script determines the segments, so the attempts each boat takes and the cells added are fixed. |
| Game.FalseAnswerChargesItsOwnBoat | src/battleship/Game.java:269-306 | A LARGE boat answered false once and then accepted, followed by a SMALL boat accepted at once, adds 4 × 2 + 1 = 9 fleet cells. |
| Game.CleanSetup | src/battleship/Game.java:296-306 | When every attempt is accepted, each boat takes one attempt and the fleet cells grow by exactly the fleet's size. |
| Game.CreateAllBoatsCompletes | src/battleship/Game.java:269-306 | Placing a fleet completes exactly when the script holds at least one accepted attempt per boat. It then consumes exactly one accepted attempt per boat and leaves the rest of the script to what follows. |
| Game.CountAcceptedAfterFirst | src/battleship/Game.java:269-281 | A boat's segment, which ends at its first accepted attempt, holds exactly one accepted attempt. |
| Match.FirstTurn | src/battleship/Main.java:31 | The single swap before the loop gives player 1 the turn (both players start without it) and changes nothing else. |
| Match.ShooterOf | src/battleship/Main.java:35-39 | Player 1 shoots exactly when its flag is set. When exactly one player holds the turn, the shooter is the one holding it. |
| Match.PlayRound | src/battleship/Main.java:34-39 | A completed round consumed at least one answer, and the shooter was the one chosen by the turn flags. |
| Match.PlayMatch | src/battleship/Main.java:34-41 | The loop ends only when the loop condition fails, that is, when some fleet is no longer afloat. |
| Match.RoundInvariant | src/battleship/Main.java:34-41 | A round keeps exactly one turn holder, names and fleet sizes. Scores never fall and hits never exceed a fleet. The shooter's own fleet stays afloat. |
| Match.MatchInvariant | src/battleship/Main.java:31-41 | At the loop's exit exactly one fleet is sunk, the one whose owner did not shoot last. Exactly one player holds the turn throughout, and hits never exceed fleet cells. |
| Match.AlwaysAnnouncesPlayer1 | src/battleship/Main.java:44-48 | As written, every finished match announces player 1. |
| Match.WinnerSankTheOtherFleet | src/battleship/Main.java:44-48 | With `<` in place of `<=`, the announced player is the one who fired the sinking shot, and the one whose opponent's fleet is sunk while its own is afloat. |
| Match.Player2WinsButPlayer1Announced | src/battleship/Main.java:44-48 | When player 1 misses and player 2 then hits every cell of player 1's fleet, player 2 has won, yet the winner test as written names player 1. |
| Match.SetupPair | src/battleship/Main.java:24-28 | The first player's fleet is placed from the start of the script, and the second player's from where the first one's stopped. Both complete exactly when the script holds one accepted attempt per boat of the two fleets. Each fleet's cells are the exact segment count of its own part of the script, and nothing else changes. |
| Match.SetupBoth | src/battleship/Main.java:16-28 | Setup of the two new players completes exactly when the script holds twenty accepted attempts. Player 1's fleet takes the start of the script and player 2's continues where player 1's stopped. Each player's cells are the exact segment count of its part, which is at least twenty. Names, scores and turns are kept. |
| Match.SetupPairClean | src/battleship/Main.java:24-28 | With every placement accepted, both fleets are placed and each adds exactly its total size. |
| Match.SetupBothClean | src/battleship/Main.java:16-28 | With twenty or more placements, all accepted, setup completes with exactly twenty cells per fleet. |
| Match.SetupEstablishesInvariant | src/battleship/Main.java:16-31 | After setup and the first swap, player 1 alone holds the turn and both fleets are afloat, so the loop invariant holds on entry. |
| Match.WholeGamePlayer2Wins | src/battleship/Main.java:16-48 | A complete game exists that is announced: every placement accepted, then player 1 misses and player 2 hits all twenty cells. Player 2 is announced, and the test as written announces player 1. |
| Match.CleanFleetSetup | src/battleship/Game.java:296-306 | With every placement accepted at once, one player's setup takes ten attempts and adds exactly twenty fleet cells. |
| Match.WinnerAsWritten | src/battleship/Main.java:44-48 | The test as written names player 1 whenever player 1's fleet is afloat or exactly sunk. It names player 2 exactly when player 1 has more hits than cells. |
| Match.Winner | src/battleship/Main.java:44-48 | The corrected test names player 1 exactly when player 1's fleet is afloat, and player 2 when it is sunk. |
| Match.PlayAndAnnounce | src/battleship/Main.java:31-48 | An announcement comes only after the loop condition fails. It names player 1 exactly when player 1's fleet is afloat, using the corrected test. |
| Match.RunGame | src/battleship/Main.java:16-48 | The whole of `main` after the menu, announcing with the corrected `<` rather than the `<=` written at line 44. The announcement keeps both names. It names player 1 exactly when player 2's fleet is sunk and player 1's is afloat, and player 2 in the symmetric case. |
| Match.RunGameAsWritten | src/battleship/Main.java:16-48 | The same game announced with the test as written. It ends exactly when `Match.RunGame` does, with the same players, and always names player 1. |
| Match.RunGameAnnouncesSinker | src/battleship/Main.java:16-48 | In a whole game, an announcement names player 1 exactly when player 2's fleet is sunk and player 1's is afloat, and symmetrically for player 2. Names carry through, and the winner test as written would have named player 1 in every such game. |
| Match.Player2CanWin | src/battleship/Main.java:31-48 | For any pair of players that setup can produce, a game exists in which player 2 sinks player 1's fleet and is announced by the corrected winner test, while the winner test as written names player 1. |

## Left out

- Console input is not modelled: `Scanner`, `verifyIntInput`, `okInput`, `mainMenu`, `getPlayerName` and the reading of orientation characters. Their results are the entries of the input scripts. A script may run out. When console input ends, the Java program stops with an uncaught `NoSuchElementException`, because none of the reading methods catches it; the model reports awaiting input instead.
- The orientation loop of `createBoat` is not modelled. It lower-cases the first character of the line, so 'H' and 'V' are accepted as well. An empty line counts as an invalid character. Any character other than h or v brings another prompt. An attempt records the orientation finally accepted, so invalid characters never appear.
- Screen output is not modelled: `clearScreen`, `printBoard`, `printModel`, `showBoardWithBoats` and the messages. They only produce output.
- The program's exit paths are not modelled: `System.exit` after the menu, and the menu itself. `RunGame` starts after the menu has chosen to play.
- `Board`, `Boat`, `BoatType`, `BoatOrientation` and the exception classes are not part of this model. The orientation has the two values `HORIZONTAL` and `VERTICAL` that `createBoat` uses; that these are all of them is an assumption. `placeBoat` and `shot` are oracles whose answers are inputs. No placement, adjacency or bounds rule is assumed.
- Boat sizes are an assumption of this model: LARGE 4, BIG 3, MEDIUM 2 and SMALL 1 cells. `BoatType` is not part of this model.
- `shotPlayer` has no member of its own. Its only effect is the call to the opponent board's `shot`. That answer is the `answer` parameter of `Game.ShootOnce`, and no `Player` field changes in the call.
- Object sharing in `createBoat` is not modelled. Every attempt reuses one `Point` object, and a `Boat` from an earlier attempt keeps a reference to it. `BuildBoat` gives each attempt its own anchor value; what `Board` does with the reference cannot be seen.
- The two-argument overload of `createBoat` is not modelled separately. It only adds a `clearScreen` before the same procedure.
- Java `int` overflow is not modelled. Score, wrong attempts and the cell counters are unbounded integers. Overflowing the score would take more than two million hits.
- Match.RunGame: announces with the corrected `<` test, not the `<=` written at `src/battleship/Main.java:44`, because the test as written names player 1 after every game. `Match.RunGameAsWritten` is the game with the test as written.
- Match.Player2CanWin: it starts from any players that satisfy what `Match.SetupBoth` guarantees, rather than from a placement script. `Match.WholeGamePlayer2Wins` gives the same game from a script in which every placement is accepted.

## Findings

| source | as written | input that shows it | evidently intended | confidence | as-written member | corrected member |
|---|---|---|---|---|---|---|
| src/battleship/Main.java:44 | The winner test compares player 1's hits with its fleet cells using `<=`. | Player 1 misses first, then player 2 hits every cell of player 1's fleet. The loop stops with player 1's hits equal to its cells, and `<=` still holds. | Announce player 1 only while player 1's fleet is afloat, with `<`. Otherwise announce player 2. | not executed | Match.Player2WinsButPlayer1Announced | Match.WinnerSankTheOtherFleet |

The whole-game function `Match.RunGame` announces the winner using the
corrected `Match.Winner`. `Match.AlwaysAnnouncesPlayer1` shows that the
as-written `Match.WinnerAsWritten` names player 1 in every finished match.

=== FILE: board.dfy ===
/**
 * What the player's board answers. The Java `Board` class is not part of
 * this model: its placement and shot rules are treated as an oracle whose
 * answers are inputs of the model.
 */
module Board {

  /** The exceptions `placeBoat` may throw. */
  datatype PlaceError = InvalidPosition | ArrayIndexOutOfBounds | AlreadyHaveBoat

  /** `placeBoat` either returns a boolean or throws. */
  datatype PlaceOutcome = Placed(ok: bool) | PlaceThrew(error: PlaceError)

  /** The exceptions `shot` may throw. */
  datatype ShotError = InvalidShotPosition | ShootedPoint

  /** `shot` either reports whether a boat was hit, or throws. */
  datatype ShotOutcome = Hit | Miss | ShotThrew(error: ShotError)
}

=== FILE: boats.dfy ===
/**
 * The boat kinds of the fleet and the boat value handed to the board.
 * The Java `Boat` and `BoatType` classes are not part of this model; only
 * the size of each kind is needed, and it follows the fleet composition of
 * the game: one four-cell boat, two of three cells, three of two, four of one.
 */
module Boats {
  import opened Wrappers
  import opened Points

  datatype BoatType = Large | Big | Medium | Small

  function Size(t: BoatType): (n: nat)
    ensures 1 <= n <= 4
    ensures n == 1 <==> t == Small
  {
    match t
    case Large => 4
    case Big => 3
    case Medium => 2
    case Small => 1
  }

  /** A boat request: its kind, its orientation (absent for one-cell boats) and its anchor. */
  datatype Boat = Boat(kind: BoatType, orientation: Option<Orientation>, anchor: Point)
}

=== FILE: decimal.dfy ===
/**
 * Decimal rendering of integers, as Java's string concatenation of an `int`
 * produces it: an optional minus sign followed by the digits, with no
 * leading zeros. A parser is given as the partner of the renderer.
 */
module Decimal {
  import opened Wrappers

  predicate IsDigit(c: char) {
    '0' <= c <= '9'
  }

  predicate AllDigits(s: string) {
    forall i :: 0 <= i < |s| ==> IsDigit(s[i])
  }

  function DigitValue(c: char): (d: nat)
    requires IsDigit(c)
    ensures d < 10
  {
    (c as int) - ('0' as int)
  }

  function DigitChar(d: nat): (c: char)
    requires d < 10
    ensures IsDigit(c) && DigitValue(c) == d
  {
    (('0' as int) + d) as char
  }

  /** The numeric value of a string of digits, most significant first. */
  function ValueOf(s: string): nat
    requires AllDigits(s)
  {
    if |s| == 0 then 0 else ValueOf(s[..|s| - 1]) * 10 + DigitValue(s[|s| - 1])
  }

  /** Digits as Java writes them: at least one, and no leading zero unless the number is 0. */
  predicate CanonicalDigits(d: string) {
    |d| >= 1 && AllDigits(d) && (|d| == 1 || d[0] != '0')
  }

  /**
   * An `int` literal as Java writes it: canonical digits, preceded by a minus
   * sign exactly when the value is negative (so never "-0").
   */
  predicate Canonical(s: string) {
    CanonicalDigits(s) || (|s| >= 2 && s[0] == '-' && CanonicalDigits(s[1..]) && s[1..] != "0")
  }

  /** The shortest decimal rendering of `n`. */
  function NatToString(n: nat): (s: string)
    ensures CanonicalDigits(s)
    ensures n > 0 ==> s[0] != '0'
    decreases n
  {
    if n < 10 then [DigitChar(n)] else NatToString(n / 10) + [DigitChar(n % 10)]
  }

  lemma {:induction false} ValueOfNatToString(n: nat)
    ensures ValueOf(NatToString(n)) == n
    decreases n
  {
    if n >= 10 {
      var s := NatToString(n);
      assert s[..|s| - 1] == NatToString(n / 10);
      ValueOfNatToString(n / 10);
    }
  }

  /** Java's decimal rendering of an int (unbounded here). */
  function IntToString(i: int): (s: string)
    ensures Canonical(s)
    ensures s[0] == '-' <==> i < 0
    ensures ParseInt(s) == Some(i)
    ensures forall k :: 0 <= k < |s| ==> s[k] == '-' || IsDigit(s[k])
  {
    if i < 0 then
      var d := NatToString(-i);
      ValueOfNatToString(-i);
      assert ("-" + d)[1..] == d;
      "-" + d
    else
      ValueOfNatToString(i);
      NatToString(i)
  }

  /** Reads an optionally negative decimal literal; anything else is None. */
  function ParseInt(s: string): Option<int> {
    if |s| >= 2 && s[0] == '-' && AllDigits(s[1..]) then Some(0 - ValueOf(s[1..]) as int)
    else if |s| >= 1 && AllDigits(s) then Some(ValueOf(s))
    else None
  }

  /** Digits without a leading zero have a positive value. */
  lemma {:induction false} LeadingDigitPositive(d: string)
    requires |d| >= 1 && AllDigits(d) && d[0] != '0'
    ensures ValueOf(d) >= 1
    decreases |d|
  {
    if |d| > 1 {
      LeadingDigitPositive(d[..|d| - 1]);
    }
  }

  /** Canonical digits are the rendering of their own value. */
  lemma {:induction false} NatToStringValueOf(d: string)
    requires CanonicalDigits(d)
    ensures NatToString(ValueOf(d)) == d
    decreases |d|
  {
    var v := ValueOf(d);
    if |d| == 1 {
      assert DigitChar(DigitValue(d[0])) == d[0];
    } else {
      var front := d[..|d| - 1];
      LeadingDigitPositive(front);
      NatToStringValueOf(front);
      assert v / 10 == ValueOf(front) && v % 10 == DigitValue(d[|d| - 1]);
      assert DigitChar(DigitValue(d[|d| - 1])) == d[|d| - 1];
      assert front + [d[|d| - 1]] == d;
    }
  }

  /**
   * The converse of the rendering: every canonical literal is the rendering
   * of the value it parses to, so `IntToString` is the only canonical
   * rendering of each int.
   */
  lemma {:induction false} CanonicalIsRendering(s: string)
    requires Canonical(s)
    ensures ParseInt(s).Some? && IntToString(ParseInt(s).value) == s
  {
    if CanonicalDigits(s) {
      NatToStringValueOf(s);
    } else {
      var d := s[1..];
      NatToStringValueOf(d);
      LeadingDigitPositive(d);
      assert "-" + d == s;
    }
  }
}

=== FILE: game.dfy ===
/**
 * The match engine of `battleship.Game`: swapping both turns, resolving the
 * shots of one shooter against one defender, and the boat-placement phase.
 * Console prompts are replaced by finite input scripts; when a script runs
 * out before the Java loop would have ended, the result says the model is
 * awaiting input.
 */
module Game {
  import opened Wrappers
  import Points
  import opened Boats
  import opened Board
  import opened Players

  /** Exactly one of the two players holds the turn. */
  predicate ExactlyOneTurn(a: Player, b: Player) {
    a.myTurn != b.myTurn
  }

  /** `swapBothTurns`: every player of the array flips its turn flag. */
  function SwapBothTurns(players: seq<Player>): (r: seq<Player>)
    ensures |r| == |players|
    ensures forall i :: 0 <= i < |r| ==>
      r[i].myTurn == !players[i].myTurn && AgreeExcept(players[i], r[i], Turn)
  {
    if |players| == 0 then [] else [SwapTurn(players[0])] + SwapBothTurns(players[1..])
  }

  /** Swapping both turns hands the single turn from one player to the other. */
  lemma SwapBothTurnsPassesTurn(a: Player, b: Player)
    requires ExactlyOneTurn(a, b)
    ensures var r := SwapBothTurns([a, b]);
      ExactlyOneTurn(r[0], r[1]) && r[0].myTurn == b.myTurn && r[1].myTurn == a.myTurn
  {
  }

  // ---------------------------------------------------------------------
  // Shooting
  // ---------------------------------------------------------------------

  datatype StopReason = Missed | Sank

  /** The state after one pass through the body of the loop in `shoot`. */
  datatype Step =
    | Continue(shooter: Player, defender: Player)
    | Stop(shooter: Player, defender: Player, reason: StopReason)

  /**
   * One shot of `shoot`, given the defender board's answer. A rejected shot
   * changes nothing and prompts again; a miss counts a wrong attempt, swaps
   * both turns and ends the call; a hit counts against the defender, pays the
   * shooter, resets the shooter's wrong attempts, and ends the call only when
   * the defender's fleet is fully hit.
   */
  function ShootOnce(s: Player, d: Player, answer: ShotOutcome): (r: Step)
    ensures answer.ShotThrew? ==> r == Continue(s, d)
    ensures answer == Miss ==>
      && r == Stop(r.shooter, r.defender, Missed)
      && r.shooter.wrongAttempts == s.wrongAttempts + 1
      && r.shooter.myTurn == !s.myTurn
      && r.shooter.name == s.name && r.shooter.score == s.score
      && r.shooter.hitBoatsPoints == s.hitBoatsPoints && r.shooter.boatsPoints == s.boatsPoints
      && r.defender.myTurn == !d.myTurn
      && AgreeExcept(d, r.defender, Turn)
    ensures answer == Hit ==>
      && r.defender.hitBoatsPoints == d.hitBoatsPoints + 1
      && AgreeExcept(d, r.defender, HitBoatsPoints)
      && r.shooter.score == IncrementScore(s).score
      && r.shooter.wrongAttempts == 0
      && r.shooter.name == s.name && r.shooter.myTurn == s.myTurn
      && r.shooter.hitBoatsPoints == s.hitBoatsPoints && r.shooter.boatsPoints == s.boatsPoints
      && (r.Stop? <==> r.defender.hitBoatsPoints == r.defender.boatsPoints)
      && (r.Stop? ==> r.reason == Sank)
  {
    match answer
    case ShotThrew(_) => Continue(s, d)
    case Miss =>
      var swapped := SwapBothTurns([IncrementWrongAttempts(s), d]);
      Stop(swapped[0], swapped[1], Missed)
    case Hit =>
      var d' := IncrementHitBoatsPoints(d);
      var s' := ResetWrongAttempts(IncrementScore(s));
      if d'.hitBoatsPoints == d'.boatsPoints then Stop(s', d', Sank) else Continue(s', d')
  }

  /**
   * The score of a hit is computed from the wrong attempts counted before
   * the reset: with two or more misses behind it, the shooter earns less than
   * the full base score that resetting first would have paid.
   */
  lemma HitPaysForMissesBeforeReset(s: Player, d: Player)
    requires s.wrongAttempts >= 2
    ensures ShootOnce(s, d, Hit).shooter.score < IncrementScore(ResetWrongAttempts(s)).score
    ensures ShootOnce(s, d, Hit).shooter.score == s.score + BASE_POINTS / s.wrongAttempts
  {
    var gain := IncrementScore(s).score - s.score;
    assert gain * s.wrongAttempts <= BASE_POINTS;
    if gain >= BASE_POINTS {
      MulLe(2, s.wrongAttempts, gain);
      assert false;
    }
    DivBounds(BASE_POINTS, s.wrongAttempts);
    DivUnique(BASE_POINTS, s.wrongAttempts, gain);
  }

  /** The floor characterisation pins the quotient down. */
  lemma {:induction false} DivUnique(a: nat, k: nat, q: int)
    requires k > 0 && q >= 0
    requires q * k <= a < (q + 1) * k
    ensures q == a / k
  {
    DivBounds(a, k);
    if q < a / k {
      MulLe(q + 1, a / k, k);
      assert false;
    } else if q > a / k {
      MulLe(a / k + 1, q, k);
      assert false;
    }
  }

  /** What one call of `shoot` leaves behind. */
  datatype ShootResult =
    | Returned(shooter: Player, defender: Player, reason: StopReason, used: nat)
    | AwaitingShot(shooter: Player, defender: Player)

  /**
   * `shoot`: the board's answers to successive shots are consumed until a
   * miss or the sinking shot; `used` is how many answers the call took.
   */
  function Shoot(s: Player, d: Player, answers: seq<ShotOutcome>): (r: ShootResult)
    ensures r.Returned? ==> 1 <= r.used <= |answers|
    ensures r.Returned? ==> forall i :: 0 <= i < r.used - 1 ==> answers[i] != Miss
    ensures r.AwaitingShot? ==> Miss !in answers
    decreases |answers|
  {
    if |answers| == 0 then AwaitingShot(s, d)
    else
      match ShootOnce(s, d, answers[0])
      case Stop(s', d', why) => Returned(s', d', why, 1)
      case Continue(s', d') =>
        match Shoot(s', d', answers[1..])
        case Returned(s'', d'', why, n) => Returned(s'', d'', why, n + 1)
        case AwaitingShot(s'', d'') => AwaitingShot(s'', d'')
  }

  /** A miss in the script ends the call of `shoot` at that shot or earlier. */
  lemma {:induction false} ShootStopsByMiss(s: Player, d: Player, answers: seq<ShotOutcome>, k: nat)
    requires k < |answers| && answers[k] == Miss
    ensures Shoot(s, d, answers).Returned? && Shoot(s, d, answers).used <= k + 1
    decreases k
  {
    if k > 0 {
      match ShootOnce(s, d, answers[0])
      case Stop(_, _, _) =>
      case Continue(s', d') =>
        ShootStopsByMiss(s', d', answers[1..], k - 1);
    }
  }

  /**
   * What a call of `shoot` preserves: names and the counters the other side
   * owns are untouched, the score only grows, the turns are swapped exactly
   * when the call ends on a miss, and a fleet that was afloat is hit at most
   * up to its size.
   */
  lemma {:induction false} ShootInvariant(s: Player, d: Player, answers: seq<ShotOutcome>)
    ensures var r := Shoot(s, d, answers);
      && r.shooter.name == s.name && r.defender.name == d.name
      && r.shooter.hitBoatsPoints == s.hitBoatsPoints && r.shooter.boatsPoints == s.boatsPoints
      && r.defender.score == d.score && r.defender.wrongAttempts == d.wrongAttempts
      && r.defender.boatsPoints == d.boatsPoints
      && s.score <= r.shooter.score
      && d.hitBoatsPoints <= r.defender.hitBoatsPoints
      && (r.Returned? && r.reason == Missed ==>
            r.shooter.myTurn == !s.myTurn && r.defender.myTurn == !d.myTurn)
      && (!(r.Returned? && r.reason == Missed) ==>
            r.shooter.myTurn == s.myTurn && r.defender.myTurn == d.myTurn)
      && (r.Returned? && r.reason == Sank ==>
            r.defender.hitBoatsPoints == r.defender.boatsPoints)
      && (d.hitBoatsPoints < d.boatsPoints && !(r.Returned? && r.reason == Sank) ==>
            r.defender.hitBoatsPoints < r.defender.boatsPoints)
    decreases |answers|
  {
    if |answers| > 0 {
      match ShootOnce(s, d, answers[0])
      case Stop(_, _, _) =>
      case Continue(s', d') =>
        ShootInvariant(s', d', answers[1..]);
    }
  }

  function Repeat<T>(x: T, n: nat): (r: seq<T>)
    ensures |r| == n && forall i :: 0 <= i < n ==> r[i] == x
  {
    if n == 0 then [] else [x] + Repeat(x, n - 1)
  }

  /** A run of hits, one per unhit fleet cell, sinks the defender in one call. */
  lemma {:induction false} HitsSinkFleet(s: Player, d: Player, k: nat)
    requires d.hitBoatsPoints + k == d.boatsPoints && k >= 1
    ensures var r := Shoot(s, d, Repeat(Hit, k));
      r.Returned? && r.reason == Sank && r.used == k
      && r.defender.hitBoatsPoints == r.defender.boatsPoints
      && r.shooter.myTurn == s.myTurn && r.defender.myTurn == d.myTurn
    decreases k
  {
    var hits := Repeat(Hit, k);
    match ShootOnce(s, d, Hit)
    case Stop(_, _, _) =>
    case Continue(s', d') =>
      assert hits[1..] == Repeat(Hit, k - 1);
      HitsSinkFleet(s', d', k - 1);
  }

  // ---------------------------------------------------------------------
  // Boat placement
  // ---------------------------------------------------------------------

  /** `createAllBoats`: one LARGE, then two BIG, three MEDIUM and four SMALL. */
  function FleetOrder(): (f: seq<BoatType>)
    ensures f == [Large, Big, Big, Medium, Medium, Medium, Small, Small, Small, Small]
  {
    [Large] + Repeat(Big, 2) + Repeat(Medium, 3) + Repeat(Small, 4)
  }

  function TotalSize(fleet: seq<BoatType>): nat {
    if |fleet| == 0 then 0 else Size(fleet[0]) + TotalSize(fleet[1..])
  }

  /** The boats come in order of non-increasing size. */
  lemma FleetOrderedBySize()
    ensures forall i, j :: 0 <= i < j < |FleetOrder()| ==> Size(FleetOrder()[i]) >= Size(FleetOrder()[j])
  {
  }

  /** The cells of a concatenation add up. */
  lemma {:induction false} TotalSizeAppend(a: seq<BoatType>, b: seq<BoatType>)
    ensures TotalSize(a + b) == TotalSize(a) + TotalSize(b)
    decreases |a|
  {
    if |a| > 0 {
      assert (a + b)[1..] == a[1..] + b;
      TotalSizeAppend(a[1..], b);
    } else {
      assert a + b == b;
    }
  }

  /** `n` boats of one kind take `n` times its size. */
  lemma {:induction false} TotalSizeRepeat(t: BoatType, n: nat)
    ensures TotalSize(Repeat(t, n)) == n * Size(t)
    decreases n
  {
    if n > 0 {
      assert Repeat(t, n)[1..] == Repeat(t, n - 1);
      TotalSizeRepeat(t, n - 1);
    }
  }

  /** The fleet has ten boats and twenty cells. */
  lemma FleetComposition()
    ensures |FleetOrder()| == 10
    ensures TotalSize(FleetOrder()) == 20
  {
    var large, big, medium, small := [Large], Repeat(Big, 2), Repeat(Medium, 3), Repeat(Small, 4);
    assert FleetOrder() == large + big + medium + small;
    TotalSizeRepeat(Big, 2);
    TotalSizeRepeat(Medium, 3);
    TotalSizeRepeat(Small, 4);
    TotalSizeAppend(large, big);
    TotalSizeAppend(large + big, medium);
    TotalSizeAppend(large + big + medium, small);
  }

  /** What `createBoat` asks the user for, in order, on each attempt. */
  datatype Prompt = AskX | AskY | AskOrientation

  function PlacementPrompts(t: BoatType): (r: seq<Prompt>)
    ensures |r| >= 2 && r[0] == AskX && r[1] == AskY
    ensures AskOrientation in r <==> Size(t) != 1
  {
    if Size(t) != 1 then [AskX, AskY, AskOrientation] else [AskX, AskY]
  }

  /**
   * One placement attempt: the coordinates typed, the orientation typed
   * (read only for boats longer than one cell) and the board's answer.
   */
  datatype PlacementAttempt =
    PlacementAttempt(x: int, y: int, orientation: Points.Orientation, answer: PlaceOutcome)

  /** The boat `createBoat` builds from one attempt. */
  function BuildBoat(t: BoatType, a: PlacementAttempt): (b: Boat)
    ensures b.kind == t && b.anchor.x == a.x && b.anchor.y == a.y && Points.Blank(b.anchor)
    ensures b.orientation.Some? <==> Size(t) != 1
    ensures b.orientation.Some? ==> b.orientation.value == a.orientation
  {
    var anchor := Points.SetY(Points.SetX(Points.Origin(), a.x), a.y);
    if Size(t) != 1 then Boat(t, Some(a.orientation), anchor) else Boat(t, None, anchor)
  }

  /** How many of the attempts saw `placeBoat` return false. */
  function CountReturnedFalse(attempts: seq<PlacementAttempt>): nat {
    if |attempts| == 0 then 0
    else (if attempts[0].answer == Placed(false) then 1 else 0) + CountReturnedFalse(attempts[1..])
  }

  /** How many of the attempts the board accepted with true. */
  function CountAccepted(attempts: seq<PlacementAttempt>): nat {
    if |attempts| == 0 then 0
    else (if attempts[0].answer == Placed(true) then 1 else 0) + CountAccepted(attempts[1..])
  }

  datatype CreateResult =
    | Created(player: Player, boat: Boat, used: nat)
    | AwaitingPlacement(player: Player)

  /**
   * `createBoat`: attempts are consumed until `addBoat` returns true. Both
   * kinds of exception and a false return lead to another attempt; a false
   * return has nevertheless already added the boat's size to the fleet cells.
   */
  function CreateBoat(p: Player, t: BoatType, attempts: seq<PlacementAttempt>): (r: CreateResult)
    ensures r.Created? ==>
      && 1 <= r.used <= |attempts|
      && attempts[r.used - 1].answer == Placed(true)
      && (forall i :: 0 <= i < r.used - 1 ==> attempts[i].answer != Placed(true))
      && r.boat == BuildBoat(t, attempts[r.used - 1])
      && r.player.boatsPoints == p.boatsPoints + Size(t) * (1 + CountReturnedFalse(attempts[..r.used - 1]))
      && AgreeExcept(p, r.player, BoatsPoints)
    ensures r.AwaitingPlacement? ==> forall i :: 0 <= i < |attempts| ==> attempts[i].answer != Placed(true)
    decreases |attempts|
  {
    if |attempts| == 0 then AwaitingPlacement(p)
    else
      var b := BuildBoat(t, attempts[0]);
      var added := AddBoat(p, b, attempts[0].answer);
      if added.Added? && added.ok then Created(added.player, b, 1)
      else
        var p' := if added.Added? then added.player else p;
        var rest := CreateBoat(p', t, attempts[1..]);
        if rest.Created? then
          var n := rest.used;
          assert attempts[1..][..n - 1] == attempts[1..n] == attempts[..n][1..];
          var first := if attempts[0].answer == Placed(false) then 1 else 0;
          assert CountReturnedFalse(attempts[..n]) == first + CountReturnedFalse(attempts[1..n]);
          assert Size(t) * (1 + first + CountReturnedFalse(attempts[1..n]))
              == Size(t) * first + Size(t) * (1 + CountReturnedFalse(attempts[1..n]));
          Created(rest.player, rest.boat, n + 1)
        else rest
  }

  /**
   * The converse of the retry rule: once the script holds an attempt the
   * board accepts with true, `createBoat` stops exactly there.
   */
  lemma {:induction false} CreateBoatStopsAtFirstAccepted(p: Player, t: BoatType, attempts: seq<PlacementAttempt>, k: nat)
    requires k < |attempts| && attempts[k].answer == Placed(true)
    requires forall i :: 0 <= i < k ==> attempts[i].answer != Placed(true)
    ensures CreateBoat(p, t, attempts).Created? && CreateBoat(p, t, attempts).used == k + 1
    decreases k
  {
    if k > 0 {
      var added := AddBoat(p, BuildBoat(t, attempts[0]), attempts[0].answer);
      var p' := if added.Added? then added.player else p;
      CreateBoatStopsAtFirstAccepted(p', t, attempts[1..], k - 1);
    }
  }

  /** Attempt `n`, counting from 1, is the first one the board accepts with true. */
  predicate FirstAccepted(attempts: seq<PlacementAttempt>, n: nat) {
    && 1 <= n <= |attempts|
    && attempts[n - 1].answer == Placed(true)
    && forall i :: 0 <= i < n - 1 ==> attempts[i].answer != Placed(true)
  }

  /**
   * The script splits into consecutive segments, `counts[i]` attempts long,
   * one per boat in fleet order, each ending at its first accepted attempt.
   */
  predicate PlacedInOrder(fleet: seq<BoatType>, attempts: seq<PlacementAttempt>, counts: seq<nat>)
    decreases |fleet|
  {
    && |counts| == |fleet|
    && (|fleet| > 0 ==>
          && FirstAccepted(attempts, counts[0])
          && PlacedInOrder(fleet[1..], attempts[counts[0]..], counts[1..]))
  }

  function Sum(ns: seq<nat>): nat {
    if |ns| == 0 then 0 else ns[0] + Sum(ns[1..])
  }

  /**
   * The fleet cells the segments add: each boat's size once for its accepted
   * attempt and once more for every false answer in its segment.
   */
  function SegmentCells(fleet: seq<BoatType>, attempts: seq<PlacementAttempt>, counts: seq<nat>): nat
    requires PlacedInOrder(fleet, attempts, counts)
    decreases |fleet|
  {
    if |fleet| == 0 then 0
    else
      Size(fleet[0]) * (1 + CountReturnedFalse(attempts[..counts[0] - 1]))
        + SegmentCells(fleet[1..], attempts[counts[0]..], counts[1..])
  }

  /**
   * The segments fit in the script, add at least the fleet's total size, and
   * add exactly that when no board answer among them was false.
   */
  lemma {:induction false} SegmentCellsBounds(fleet: seq<BoatType>, attempts: seq<PlacementAttempt>, counts: seq<nat>)
    requires PlacedInOrder(fleet, attempts, counts)
    ensures Sum(counts) <= |attempts|
    ensures SegmentCells(fleet, attempts, counts) >= TotalSize(fleet)
    ensures CountReturnedFalse(attempts[..Sum(counts)]) == 0 ==>
      SegmentCells(fleet, attempts, counts) == TotalSize(fleet)
    decreases |fleet|
  {
    if |fleet| > 0 {
      var n, rest := counts[0], attempts[counts[0]..];
      SegmentCellsBounds(fleet[1..], rest, counts[1..]);
      var m := Sum(counts[1..]);
      var c := CountReturnedFalse(attempts[..n - 1]);
      assert Size(fleet[0]) * (1 + c) == Size(fleet[0]) + Size(fleet[0]) * c;
      CountReturnedFalseSplit(attempts[..n + m], n);
      assert attempts[..n + m][..n] == attempts[..n];
      assert attempts[..n + m][n..] == rest[..m];
      assert attempts[..n][..n - 1] == attempts[..n - 1];
      CountReturnedFalseSplit(attempts[..n], n - 1);
    }
  }

  /** The segments are determined by the script, so the cells `SegmentCells` counts are too. */
  lemma {:induction false} PlacedInOrderUnique(fleet: seq<BoatType>, attempts: seq<PlacementAttempt>,
                                               c1: seq<nat>, c2: seq<nat>)
    requires PlacedInOrder(fleet, attempts, c1) && PlacedInOrder(fleet, attempts, c2)
    ensures c1 == c2
    decreases |fleet|
  {
    if |fleet| > 0 {
      var n1, n2 := c1[0], c2[0];
      assert n1 == n2;
      PlacedInOrderUnique(fleet[1..], attempts[n1..], c1[1..], c2[1..]);
      assert c1 == [n1] + c1[1..] && c2 == [n2] + c2[1..];
    }
  }

  datatype SetupResult =
    | SetupDone(player: Player, used: nat, counts: seq<nat>)
    | AwaitingSetup(player: Player)

  /**
   * `createAllBoats` over a fleet: each boat in turn, from one shared attempt
   * script. `counts` records how many attempts each boat took.
   */
  function CreateAllBoats(p: Player, fleet: seq<BoatType>, attempts: seq<PlacementAttempt>): (r: SetupResult)
    ensures r.SetupDone? ==>
      && PlacedInOrder(fleet, attempts, r.counts)
      && r.used == Sum(r.counts) <= |attempts|
      && AgreeExcept(p, r.player, BoatsPoints)
      && r.player.boatsPoints == p.boatsPoints + SegmentCells(fleet, attempts, r.counts)
      && r.player.boatsPoints >= p.boatsPoints + TotalSize(fleet)
      && (CountReturnedFalse(attempts[..r.used]) == 0 ==>
            r.player.boatsPoints == p.boatsPoints + TotalSize(fleet))
    decreases |fleet|
  {
    if |fleet| == 0 then
      SegmentCellsBounds(fleet, attempts, []);
      SetupDone(p, 0, [])
    else
      match CreateBoat(p, fleet[0], attempts)
      case AwaitingPlacement(q) => AwaitingSetup(q)
      case Created(q, _, n) =>
        match CreateAllBoats(q, fleet[1..], attempts[n..])
        case AwaitingSetup(q') => AwaitingSetup(q')
        case SetupDone(q', m, ms) =>
          var counts := [n] + ms;
          assert counts[1..] == ms;
          assert PlacedInOrder(fleet, attempts, counts);
          SegmentCellsBounds(fleet, attempts, counts);
          SetupDone(q', n + m, counts)
  }

  /**
   * Boats are handled in fleet order: a LARGE boat whose first attempt the
   * board answers false and whose second it accepts, then a SMALL boat
   * accepted at once, add 4 * 2 + 1 = 9 fleet cells.
   */
  lemma {:induction false} FalseAnswerChargesItsOwnBoat(p: Player, a: PlacementAttempt, b: PlacementAttempt,
                                                       c: PlacementAttempt)
    requires a.answer == Placed(false) && b.answer == Placed(true) && c.answer == Placed(true)
    ensures var r := CreateAllBoats(p, [Large, Small], [a, b, c]);
      r.SetupDone? && r.counts == [2, 1] && r.player.boatsPoints == p.boatsPoints + 9
  {
    var attempts := [a, b, c];
    assert CreateBoat(p, Large, attempts).used == 2 by {
      CreateBoatStopsAtFirstAccepted(p, Large, attempts, 1);
    }
    var q := CreateBoat(p, Large, attempts).player;
    assert attempts[..1] == [a];
    assert q.boatsPoints == p.boatsPoints + 8;
    assert attempts[2..] == [c];
    assert [Large, Small][1..] == [Small];
    CleanSetup(q, [Small], [c]);
  }

  lemma {:induction false} CountReturnedFalseSplit(a: seq<PlacementAttempt>, k: nat)
    requires k <= |a|
    ensures CountReturnedFalse(a) == CountReturnedFalse(a[..k]) + CountReturnedFalse(a[k..])
    decreases k
  {
    if k > 0 {
      assert a[1..][..k - 1] == a[1..k];
      assert a[..k][1..] == a[1..k];
      assert a[1..][k - 1..] == a[k..];
      CountReturnedFalseSplit(a[1..], k - 1);
    }
  }

  /** When every attempt succeeds, each boat takes one attempt and the fleet is placed exactly. */
  lemma {:induction false} CleanSetup(p: Player, fleet: seq<BoatType>, attempts: seq<PlacementAttempt>)
    requires |attempts| >= |fleet|
    requires forall i :: 0 <= i < |attempts| ==> attempts[i].answer == Placed(true)
    ensures var r := CreateAllBoats(p, fleet, attempts);
      r.SetupDone? && r.used == |fleet| && r.player.boatsPoints == p.boatsPoints + TotalSize(fleet)
    decreases |fleet|
  {
    if |fleet| > 0 {
      assert CreateBoat(p, fleet[0], attempts).used == 1;
      var q := CreateBoat(p, fleet[0], attempts).player;
      CleanSetup(q, fleet[1..], attempts[1..]);
    }
  }

  lemma {:induction false} NoneAccepted(attempts: seq<PlacementAttempt>)
    requires forall i :: 0 <= i < |attempts| ==> attempts[i].answer != Placed(true)
    ensures CountAccepted(attempts) == 0
    decreases |attempts|
  {
    if |attempts| > 0 {
      NoneAccepted(attempts[1..]);
    }
  }

  /** A segment ending at the first accepted attempt holds exactly one accepted attempt. */
  lemma {:induction false} CountAcceptedAfterFirst(attempts: seq<PlacementAttempt>, n: nat)
    requires FirstAccepted(attempts, n)
    ensures CountAccepted(attempts) == 1 + CountAccepted(attempts[n..])
    decreases n
  {
    if n > 1 {
      assert attempts[1..][n - 1..] == attempts[n..];
      CountAcceptedAfterFirst(attempts[1..], n - 1);
    }
  }

  /**
   * `createAllBoats` completes exactly when the script holds at least one
   * accepted attempt per boat, and then it consumes exactly one accepted
   * attempt per boat.
   */
  lemma {:induction false} CreateAllBoatsCompletes(p: Player, fleet: seq<BoatType>, attempts: seq<PlacementAttempt>)
    ensures var r := CreateAllBoats(p, fleet, attempts);
      && (r.SetupDone? <==> CountAccepted(attempts) >= |fleet|)
      && (r.SetupDone? ==> CountAccepted(attempts) == |fleet| + CountAccepted(attempts[r.used..]))
    decreases |fleet|
  {
    if |fleet| > 0 {
      var c := CreateBoat(p, fleet[0], attempts);
      if c.AwaitingPlacement? {
        NoneAccepted(attempts);
        assert CreateAllBoats(p, fleet, attempts) == AwaitingSetup(c.player);
      } else {
        var n := c.used;
        CountAcceptedAfterFirst(attempts, n);
        CreateAllBoatsCompletes(c.player, fleet[1..], attempts[n..]);
        var rest := CreateAllBoats(c.player, fleet[1..], attempts[n..]);
        if rest.SetupDone? {
          var r := CreateAllBoats(p, fleet, attempts);
          assert r.used == n + rest.used;
          assert attempts[n..][rest.used..] == attempts[r.used..];
          assert CountAccepted(attempts) == |fleet| + CountAccepted(attempts[r.used..]);
        } else {
          assert CreateAllBoats(p, fleet, attempts) == AwaitingSetup(rest.player);
        }
      }
    } else {
      assert attempts[0..] == attempts;
    }
  }

  /** A script whose every attempt is accepted counts each one as accepted and none as false. */
  lemma {:induction false} AllAccepted(attempts: seq<PlacementAttempt>)
    requires forall i :: 0 <= i < |attempts| ==> attempts[i].answer == Placed(true)
    ensures CountAccepted(attempts) == |attempts| && CountReturnedFalse(attempts) == 0
    decreases |attempts|
  {
    if |attempts| > 0 {
      AllAccepted(attempts[1..]);
    }
  }
}

=== FILE: match.dfy ===
/**
 * The outer turn loop of `battleship.Main`: player 1 receives the first
 * turn, the turn flags pick the shooter, rounds are played while both
 * fleets are afloat, and a winner is announced.
 */
module Match {
  import opened Boats
  import opened Board
  import opened Players
  import opened Game
  import opened Wrappers

  datatype Who = Player1 | Player2

  predicate Afloat(p: Player) {
    p.hitBoatsPoints < p.boatsPoints
  }

  predicate Sunk(p: Player) {
    p.hitBoatsPoints == p.boatsPoints
  }

  /** The condition of the shooting loop: both fleets still afloat. */
  predicate KeepPlaying(p1: Player, p2: Player) {
    Afloat(p1) && Afloat(p2)
  }

  /** Before the loop, one `swapTurn` on player 1 gives player 1 the first turn. */
  function FirstTurn(p1: Player): (r: Player)
    ensures AgreeExcept(p1, r, Turn)
    ensures !p1.myTurn ==> r.myTurn
  {
    SwapTurn(p1)
  }

  /** Player 1 shoots when its turn flag is set, otherwise player 2 shoots. */
  function ShooterOf(p1: Player, p2: Player): (w: Who)
    ensures w == Player1 <==> p1.myTurn
    ensures ExactlyOneTurn(p1, p2) ==> (w == Player2 <==> p2.myTurn)
  {
    if p1.myTurn then Player1 else Player2
  }

  datatype RoundResult =
    | Round(p1: Player, p2: Player, shooter: Who, used: nat)
    | AwaitingRound(p1: Player, p2: Player)

  /** One pass through the loop body: the chosen shooter fires at the other player. */
  function PlayRound(p1: Player, p2: Player, answers: seq<ShotOutcome>): (r: RoundResult)
    ensures r.Round? ==> 1 <= r.used <= |answers| && r.shooter == ShooterOf(p1, p2)
  {
    if ShooterOf(p1, p2) == Player1 then
      match Shoot(p1, p2, answers)
      case Returned(a, b, _, n) => Round(a, b, Player1, n)
      case AwaitingShot(a, b) => AwaitingRound(a, b)
    else
      match Shoot(p2, p1, answers)
      case Returned(b, a, _, n) => Round(a, b, Player2, n)
      case AwaitingShot(b, a) => AwaitingRound(a, b)
  }

  datatype MatchResult =
    | Finished(p1: Player, p2: Player, lastShooter: Who)
    | Unfinished(p1: Player, p2: Player)

  /** The do-while loop of `main`: play a round, then test whether both fleets are afloat. */
  function PlayMatch(p1: Player, p2: Player, answers: seq<ShotOutcome>): (r: MatchResult)
    ensures r.Finished? ==> !KeepPlaying(r.p1, r.p2)
    decreases |answers|
  {
    match PlayRound(p1, p2, answers)
    case AwaitingRound(a, b) => Unfinished(a, b)
    case Round(a, b, w, n) =>
      if KeepPlaying(a, b) then PlayMatch(a, b, answers[n..]) else Finished(a, b, w)
  }

  /** The loop invariant: one turn holder and both fleets afloat at every test of the condition. */
  predicate LoopInvariant(p1: Player, p2: Player) {
    ExactlyOneTurn(p1, p2) && KeepPlaying(p1, p2)
  }

  /** A round keeps exactly one turn holder, and the shooter's own fleet is never touched. */
  lemma {:induction false} RoundInvariant(p1: Player, p2: Player, answers: seq<ShotOutcome>)
    requires LoopInvariant(p1, p2)
    ensures var r := PlayRound(p1, p2, answers);
      && ExactlyOneTurn(r.p1, r.p2)
      && r.p1.name == p1.name && r.p2.name == p2.name
      && r.p1.boatsPoints == p1.boatsPoints && r.p2.boatsPoints == p2.boatsPoints
      && p1.score <= r.p1.score && p2.score <= r.p2.score
      && r.p1.hitBoatsPoints <= r.p1.boatsPoints && r.p2.hitBoatsPoints <= r.p2.boatsPoints
      && (r.Round? && r.shooter == Player1 ==> Afloat(r.p1) && (Sunk(r.p2) || Afloat(r.p2)))
      && (r.Round? && r.shooter == Player2 ==> Afloat(r.p2) && (Sunk(r.p1) || Afloat(r.p1)))
      && (r.AwaitingRound? ==> KeepPlaying(r.p1, r.p2))
  {
    if ShooterOf(p1, p2) == Player1 {
      ShootInvariant(p1, p2, answers);
    } else {
      ShootInvariant(p2, p1, answers);
    }
  }

  /**
   * The match ends with exactly one fleet sunk, that of the player who did
   * not shoot last; exactly one player still holds the turn; hits never
   * exceed a fleet's cells; names, fleet sizes and the non-decreasing scores
   * carry over.
   */
  lemma {:induction false} MatchInvariant(p1: Player, p2: Player, answers: seq<ShotOutcome>)
    requires LoopInvariant(p1, p2)
    ensures var r := PlayMatch(p1, p2, answers);
      && ExactlyOneTurn(r.p1, r.p2)
      && r.p1.name == p1.name && r.p2.name == p2.name
      && r.p1.boatsPoints == p1.boatsPoints && r.p2.boatsPoints == p2.boatsPoints
      && p1.score <= r.p1.score && p2.score <= r.p2.score
      && r.p1.hitBoatsPoints <= r.p1.boatsPoints && r.p2.hitBoatsPoints <= r.p2.boatsPoints
      && (r.Finished? ==> Sunk(r.p1) != Sunk(r.p2))
      && (r.Finished? ==> (r.lastShooter == Player1 <==> Sunk(r.p2)))
      && (r.Unfinished? ==> KeepPlaying(r.p1, r.p2))
    decreases |answers|
  {
    RoundInvariant(p1, p2, answers);
    match PlayRound(p1, p2, answers)
    case AwaitingRound(_, _) =>
    case Round(a, b, w, n) =>
      if KeepPlaying(a, b) {
        MatchInvariant(a, b, answers[n..]);
      }
  }

  /** The announcement as `main` writes it: player 1 unless player 1 was hit more often than it has cells. */
  function WinnerAsWritten(p1: Player, p2: Player): (w: Who)
    ensures Afloat(p1) || Sunk(p1) ==> w == Player1
    ensures w == Player2 <==> p1.hitBoatsPoints > p1.boatsPoints
  {
    if p1.hitBoatsPoints <= p1.boatsPoints then Player1 else Player2
  }

  /** The announcement as intended: player 1 exactly when player 1's fleet is still afloat. */
  function Winner(p1: Player, p2: Player): (w: Who)
    ensures w == Player1 <==> Afloat(p1)
    ensures Sunk(p1) ==> w == Player2
  {
    if p1.hitBoatsPoints < p1.boatsPoints then Player1 else Player2
  }

  /** As written, every match that ends announces player 1. */
  lemma {:induction false} AlwaysAnnouncesPlayer1(p1: Player, p2: Player, answers: seq<ShotOutcome>)
    requires LoopInvariant(p1, p2)
    ensures var r := PlayMatch(p1, p2, answers);
      r.Finished? ==> WinnerAsWritten(r.p1, r.p2) == Player1
  {
    MatchInvariant(p1, p2, answers);
  }

  /** As intended, the announced player is the one who fired the sinking shot. */
  lemma {:induction false} WinnerSankTheOtherFleet(p1: Player, p2: Player, answers: seq<ShotOutcome>)
    requires LoopInvariant(p1, p2)
    ensures var r := PlayMatch(p1, p2, answers);
      r.Finished? ==>
        && Winner(r.p1, r.p2) == r.lastShooter
        && (Winner(r.p1, r.p2) == Player1 <==> Sunk(r.p2) && Afloat(r.p1))
        && (Winner(r.p1, r.p2) == Player2 <==> Sunk(r.p1) && Afloat(r.p2))
  {
    MatchInvariant(p1, p2, answers);
  }

  /**
   * The input that shows the defect: player 1 misses its first shot, then
   * player 2 hits every cell of player 1's fleet. Player 2 has won, yet the
   * announcement as written names player 1.
   */
  lemma {:induction false} Player2WinsButPlayer1Announced(p1: Player, p2: Player, k: nat)
    requires LoopInvariant(p1, p2) && p1.myTurn
    requires k == p1.boatsPoints - p1.hitBoatsPoints
    ensures var r := PlayMatch(p1, p2, [Miss] + Repeat(Hit, k));
      && r.Finished? && r.lastShooter == Player2 && Sunk(r.p1)
      && Winner(r.p1, r.p2) == Player2
      && WinnerAsWritten(r.p1, r.p2) == Player1
  {
    var answers := [Miss] + Repeat(Hit, k);
    var r1 := PlayRound(p1, p2, answers);
    assert r1 == Round(r1.p1, r1.p2, Player1, 1);
    assert answers[1..] == Repeat(Hit, k);
    assert !r1.p1.myTurn && r1.p1.hitBoatsPoints == p1.hitBoatsPoints;
    HitsSinkFleet(r1.p2, r1.p1, k);
    MatchInvariant(p1, p2, answers);
  }

  // ---------------------------------------------------------------------
  // The whole program
  // ---------------------------------------------------------------------

  datatype GameResult =
    | Announced(winner: Who, p1: Player, p2: Player)
    | AwaitingInput

  /** Both players after setup, with the attempts each boat of each fleet took. */
  datatype Fleets = Fleets(p1: Player, p2: Player, counts1: seq<nat>, counts2: seq<nat>)

  /**
   * Two fleets from one placement script: the first player's from the start
   * of the script, the second player's from where the first one's stopped.
   * Both complete exactly when the script holds one accepted attempt per
   * boat of the two fleets.
   */
  function SetupPair(a: Player, b: Player, fleet: seq<BoatType>, placements: seq<PlacementAttempt>): (r: Option<Fleets>)
    ensures r.Some? <==> CountAccepted(placements) >= 2 * |fleet|
    ensures r.Some? ==>
      var n := Sum(r.value.counts1);
      && PlacedInOrder(fleet, placements, r.value.counts1)
      && AgreeExcept(a, r.value.p1, BoatsPoints)
      && r.value.p1.boatsPoints == a.boatsPoints + SegmentCells(fleet, placements, r.value.counts1)
      && n <= |placements|
      && PlacedInOrder(fleet, placements[n..], r.value.counts2)
      && AgreeExcept(b, r.value.p2, BoatsPoints)
      && r.value.p2.boatsPoints == b.boatsPoints + SegmentCells(fleet, placements[n..], r.value.counts2)
  {
    CreateAllBoatsCompletes(a, fleet, placements);
    match CreateAllBoats(a, fleet, placements)
    case AwaitingSetup(_) => None
    case SetupDone(q1, n, c1) =>
      CreateAllBoatsCompletes(b, fleet, placements[n..]);
      match CreateAllBoats(b, fleet, placements[n..])
      case AwaitingSetup(_) => None
      case SetupDone(q2, _, c2) => Some(Fleets(q1, q2, c1, c2))
  }

  /**
   * The setup part of `main`: two players in name order, then the fleet of
   * player 1 and after it that of player 2, from one placement script.
   * Setup completes exactly when the script holds twenty accepted attempts.
   */
  function SetupBoth(name1: string, name2: string, placements: seq<PlacementAttempt>): (r: Option<Fleets>)
    ensures r.Some? <==> CountAccepted(placements) >= 20
    ensures r.Some? ==>
      && AgreeExcept(NewPlayer(name1), r.value.p1, BoatsPoints) && r.value.p1.boatsPoints >= 20
      && AgreeExcept(NewPlayer(name2), r.value.p2, BoatsPoints) && r.value.p2.boatsPoints >= 20
    ensures r.Some? ==>
      var n := Sum(r.value.counts1);
      && PlacedInOrder(FleetOrder(), placements, r.value.counts1)
      && r.value.p1.boatsPoints == SegmentCells(FleetOrder(), placements, r.value.counts1)
      && n <= |placements|
      && PlacedInOrder(FleetOrder(), placements[n..], r.value.counts2)
      && r.value.p2.boatsPoints == SegmentCells(FleetOrder(), placements[n..], r.value.counts2)
  {
    var fleet := FleetOrder();
    FleetComposition();
    var r := SetupPair(NewPlayer(name1), NewPlayer(name2), fleet, placements);
    if r.None? then r
    else
      SegmentCellsBounds(fleet, placements, r.value.counts1);
      SegmentCellsBounds(fleet, placements[Sum(r.value.counts1)..], r.value.counts2);
      r
  }

  /** The shooting part of `main`: player 1's first turn, the loop, the corrected announcement. */
  function PlayAndAnnounce(q1: Player, q2: Player, answers: seq<ShotOutcome>): (r: GameResult)
    ensures r.Announced? ==> !KeepPlaying(r.p1, r.p2) && (r.winner == Player1 <==> Afloat(r.p1))
  {
    match PlayMatch(FirstTurn(q1), q2, answers)
    case Unfinished(_, _) => AwaitingInput
    case Finished(a, b, _) => Announced(Winner(a, b), a, b)
  }

  /**
   * `main` after the menu, announcing with the corrected test: the player
   * named is the one whose opponent's fleet is sunk while its own is afloat.
   */
  function RunGame(name1: string, name2: string, placements: seq<PlacementAttempt>,
                   answers: seq<ShotOutcome>): (r: GameResult)
    ensures r.Announced? ==>
      && r.p1.name == name1 && r.p2.name == name2
      && (r.winner == Player1 <==> Sunk(r.p2) && Afloat(r.p1))
      && (r.winner == Player2 <==> Sunk(r.p1) && Afloat(r.p2))
  {
    match SetupBoth(name1, name2, placements)
    case None => AwaitingInput
    case Some(Fleets(q1, q2, _, _)) =>
      SetupEstablishesInvariant(q1, q2, name1, name2);
      MatchInvariant(FirstTurn(q1), q2, answers);
      WinnerSankTheOtherFleet(FirstTurn(q1), q2, answers);
      PlayAndAnnounce(q1, q2, answers)
  }

  /**
   * `main` after the menu with the test as written at line 44: the same
   * game, but the announcement names player 1 whoever sank whom.
   */
  function RunGameAsWritten(name1: string, name2: string, placements: seq<PlacementAttempt>,
                            answers: seq<ShotOutcome>): (r: GameResult)
    ensures var g := RunGame(name1, name2, placements, answers);
      && (r.Announced? <==> g.Announced?)
      && (r.Announced? ==> r.p1 == g.p1 && r.p2 == g.p2 && r.winner == Player1)
  {
    match RunGame(name1, name2, placements, answers)
    case AwaitingInput => AwaitingInput
    case Announced(_, a, b) => Announced(WinnerAsWritten(a, b), a, b)
  }

  /** After setup no fleet is hit and only player 1 holds the turn. */
  lemma {:induction false} SetupEstablishesInvariant(q1: Player, q2: Player, name1: string, name2: string)
    requires AgreeExcept(NewPlayer(name1), q1, BoatsPoints) && q1.boatsPoints >= 20
    requires AgreeExcept(NewPlayer(name2), q2, BoatsPoints) && q2.boatsPoints >= 20
    ensures LoopInvariant(FirstTurn(q1), q2) && FirstTurn(q1).myTurn
  {
  }

  /**
   * Every announcement names the player whose opponent's fleet is sunk,
   * with both names carried through; the announcement as written would
   * have named player 1 in every one of these runs.
   */
  lemma {:induction false} RunGameAnnouncesSinker(name1: string, name2: string, placements: seq<PlacementAttempt>,
                               answers: seq<ShotOutcome>)
    ensures var r := RunGame(name1, name2, placements, answers);
      r.Announced? ==>
        && r.p1.name == name1 && r.p2.name == name2
        && r.p1.boatsPoints >= 20 && r.p2.boatsPoints >= 20
        && (r.winner == Player1 <==> Sunk(r.p2) && Afloat(r.p1))
        && (r.winner == Player2 <==> Sunk(r.p1) && Afloat(r.p2))
        && WinnerAsWritten(r.p1, r.p2) == Player1
  {
    var setup := SetupBoth(name1, name2, placements);
    if setup.Some? {
      var q1, q2 := setup.value.p1, setup.value.p2;
      SetupEstablishesInvariant(q1, q2, name1, name2);
      MatchInvariant(FirstTurn(q1), q2, answers);
      WinnerSankTheOtherFleet(FirstTurn(q1), q2, answers);
      AlwaysAnnouncesPlayer1(FirstTurn(q1), q2, answers);
    }
  }

  /** With every placement accepted at once, a player's setup takes ten attempts and places twenty cells. */
  lemma {:induction false} CleanFleetSetup(p: Player, placements: seq<PlacementAttempt>) returns (q: Player)
    requires |placements| >= 10
    requires forall i :: 0 <= i < |placements| ==> placements[i].answer == Placed(true)
    ensures var r := CreateAllBoats(p, FleetOrder(), placements);
      r.SetupDone? && r.used == 10 && r.player == q
    ensures q.boatsPoints == p.boatsPoints + 20 && AgreeExcept(p, q, BoatsPoints)
  {
    FleetComposition();
    CleanSetup(p, FleetOrder(), placements);
    q := CreateAllBoats(p, FleetOrder(), placements).player;
  }

  /**
   * A game where player 2 wins: after any setup that `SetupBoth` can
   * produce, player 1 misses at once and player 2 hits every cell of player
   * 1's fleet. The corrected announcement names player 2; as written, player 1.
   */
  lemma {:induction false} Player2CanWin(q1: Player, q2: Player, name1: string, name2: string)
    requires AgreeExcept(NewPlayer(name1), q1, BoatsPoints) && q1.boatsPoints >= 20
    requires AgreeExcept(NewPlayer(name2), q2, BoatsPoints) && q2.boatsPoints >= 20
    ensures var r := PlayAndAnnounce(q1, q2, [Miss] + Repeat(Hit, q1.boatsPoints));
      r.Announced? && r.winner == Player2 && WinnerAsWritten(r.p1, r.p2) == Player1
  {
    SetupEstablishesInvariant(q1, q2, name1, name2);
    Player2WinsButPlayer1Announced(FirstTurn(q1), q2, q1.boatsPoints);
  }

  /** With every placement accepted, both fleets are placed and each adds exactly its total size. */
  lemma {:induction false} SetupPairClean(a: Player, b: Player, fleet: seq<BoatType>, placements: seq<PlacementAttempt>)
    requires |placements| >= 2 * |fleet|
    requires forall i :: 0 <= i < |placements| ==> placements[i].answer == Placed(true)
    ensures var r := SetupPair(a, b, fleet, placements);
      && r.Some?
      && r.value.p1.boatsPoints == a.boatsPoints + TotalSize(fleet)
      && r.value.p2.boatsPoints == b.boatsPoints + TotalSize(fleet)
  {
    AllAccepted(placements);
    var r := SetupPair(a, b, fleet, placements);
    var n := Sum(r.value.counts1);
    AllAccepted(placements[..n]);
    SegmentCellsBounds(fleet, placements, r.value.counts1);
    var rest := placements[n..];
    AllAccepted(rest[..Sum(r.value.counts2)]);
    SegmentCellsBounds(fleet, rest, r.value.counts2);
  }

  /** With every placement accepted, both setups complete and each fleet has exactly twenty cells. */
  lemma {:induction false} SetupBothClean(name1: string, name2: string, placements: seq<PlacementAttempt>)
    requires |placements| >= 20
    requires forall i :: 0 <= i < |placements| ==> placements[i].answer == Placed(true)
    ensures var r := SetupBoth(name1, name2, placements);
      r.Some? && r.value.p1.boatsPoints == 20 && r.value.p2.boatsPoints == 20
  {
    FleetComposition();
    SetupPairClean(NewPlayer(name1), NewPlayer(name2), FleetOrder(), placements);
    assert SetupBoth(name1, name2, placements) == SetupPair(NewPlayer(name1), NewPlayer(name2), FleetOrder(), placements);
  }

  /**
   * A whole game player 2 wins: every placement accepted, then player 1
   * misses and player 2 hits all twenty cells of player 1's fleet. The game
   * announces player 2; with the test as written it announces player 1.
   */
  lemma {:induction false} WholeGamePlayer2Wins(name1: string, name2: string, placements: seq<PlacementAttempt>)
    requires |placements| >= 20
    requires forall i :: 0 <= i < |placements| ==> placements[i].answer == Placed(true)
    ensures var r := RunGame(name1, name2, placements, [Miss] + Repeat(Hit, 20));
      r.Announced? && r.winner == Player2 && r.p1.name == name1 && Sunk(r.p1)
    ensures var w := RunGameAsWritten(name1, name2, placements, [Miss] + Repeat(Hit, 20));
      w.Announced? && w.winner == Player1
  {
    SetupBothClean(name1, name2, placements);
    var f := SetupBoth(name1, name2, placements).value;
    Player2CanWin(f.p1, f.p2, name1, name2);
  }
}

=== FILE: players.dfy ===
/**
 * The per-player counters of `battleship.core.Player`: score, consecutive
 * wrong attempts, turn flag, hits received and fleet cells placed. The
 * player's board is not held here; its answers reach the model as oracle
 * inputs (module Board).
 */
module Players {
  import opened Boats
  import opened Board

  /** The score awarded for a hit made without a preceding miss. */
  const BASE_POINTS: int := 1000

  datatype Player = Player(
    name: string,
    score: int,
    wrongAttempts: nat,
    myTurn: bool,
    hitBoatsPoints: nat,   // cells of this player's fleet hit by the opponent
    boatsPoints: nat)      // cells of this player's fleet placed

  /** The mutable counters of a player. */
  datatype Counter = Score | WrongAttempts | Turn | HitBoatsPoints | BoatsPoints

  /** `q` agrees with `p` on the name and every counter except possibly `c`. */
  predicate AgreeExcept(p: Player, q: Player, c: Counter) {
    && q.name == p.name
    && (c != Score ==> q.score == p.score)
    && (c != WrongAttempts ==> q.wrongAttempts == p.wrongAttempts)
    && (c != Turn ==> q.myTurn == p.myTurn)
    && (c != HitBoatsPoints ==> q.hitBoatsPoints == p.hitBoatsPoints)
    && (c != BoatsPoints ==> q.boatsPoints == p.boatsPoints)
  }

  /** `new Player(name)`. */
  function NewPlayer(name: string): (p: Player)
    ensures p.name == name
    ensures p.score == 0 && p.wrongAttempts == 0 && p.hitBoatsPoints == 0 && p.boatsPoints == 0
    ensures !p.myTurn
  {
    Player(name, 0, 0, false, 0, 0)
  }

  /**
   * `incrementScore`: a hit after no miss earns the full base score, a hit
   * after k misses earns the base score divided by k, rounded down (both
   * operands are positive, so Java's truncating division and Dafny's agree).
   */
  function IncrementScore(p: Player): (r: Player)
    ensures AgreeExcept(p, r, Score)
    ensures p.wrongAttempts == 0 ==> r.score == p.score + BASE_POINTS
    ensures p.wrongAttempts > 0 ==>
      (r.score - p.score) * p.wrongAttempts <= BASE_POINTS < (r.score - p.score + 1) * p.wrongAttempts
    ensures p.score <= r.score <= p.score + BASE_POINTS
  {
    if p.wrongAttempts == 0 then p.(score := p.score + BASE_POINTS)
    else
      var gain := BASE_POINTS / p.wrongAttempts;
      DivBounds(BASE_POINTS, p.wrongAttempts);
      p.(score := p.score + gain)
  }

  lemma {:induction false} DivBounds(a: nat, k: nat)
    requires k > 0
    ensures 0 <= a / k <= a
    ensures (a / k) * k <= a < (a / k + 1) * k
  {
    var q, m := a / k, a % k;
    assert a == q * k + m && 0 <= m < k;
    assert (q + 1) * k == q * k + k;
    assert q <= q * k by {
      assert q * k == q * (k - 1) + q;
      NonNegProduct(q, k - 1);
    }
  }

  lemma {:induction false} MulLe(x: int, y: int, z: int)
    requires 0 <= x <= y && z >= 0
    ensures x * z <= y * z
  {
    assert y * z - x * z == (y - x) * z;
    NonNegProduct(y - x, z);
  }

  lemma {:induction false} NonNegProduct(a: int, b: int)
    requires a >= 0 && b >= 0
    ensures a * b >= 0
  {
  }

  function IncrementWrongAttempts(p: Player): (r: Player)
    ensures r.wrongAttempts == p.wrongAttempts + 1
    ensures AgreeExcept(p, r, WrongAttempts)
  {
    p.(wrongAttempts := p.wrongAttempts + 1)
  }

  function ResetWrongAttempts(p: Player): (r: Player)
    ensures r.wrongAttempts == 0
    ensures AgreeExcept(p, r, WrongAttempts)
  {
    p.(wrongAttempts := 0)
  }

  function IncrementHitBoatsPoints(p: Player): (r: Player)
    ensures r.hitBoatsPoints == p.hitBoatsPoints + 1
    ensures AgreeExcept(p, r, HitBoatsPoints)
  {
    p.(hitBoatsPoints := p.hitBoatsPoints + 1)
  }

  function SwapTurn(p: Player): (r: Player)
    ensures r.myTurn == !p.myTurn
    ensures AgreeExcept(p, r, Turn)
  {
    p.(myTurn := !p.myTurn)
  }

  /** Swapping twice restores the player. */
  lemma SwapTurnInvolution(p: Player)
    ensures SwapTurn(SwapTurn(p)) == p
  {
  }

  /** A reset forgets every miss counted before it. */
  lemma {:induction false} ResetForgetsMisses(p: Player, k: nat)
    ensures ResetWrongAttempts(IncrementWrongAttemptsTimes(p, k)) == ResetWrongAttempts(p)
  {
  }

  function IncrementWrongAttemptsTimes(p: Player, k: nat): (r: Player)
    ensures r.wrongAttempts == p.wrongAttempts + k
    ensures AgreeExcept(p, r, WrongAttempts)
  {
    if k == 0 then p else IncrementWrongAttempts(IncrementWrongAttemptsTimes(p, k - 1))
  }

  /** The reward for a hit never grows with the number of misses before it. */
  lemma {:induction false} MoreMissesSmallerReward(p: Player, k: nat)
    ensures IncrementScore(IncrementWrongAttemptsTimes(p, k)).score - p.score
         <= IncrementScore(p).score - p.score
  {
    var q := IncrementWrongAttemptsTimes(p, k);
    if q.wrongAttempts > 0 && p.wrongAttempts > 0 {
      DivMonotone(BASE_POINTS, p.wrongAttempts, q.wrongAttempts);
    }
  }

  lemma {:induction false} DivMonotone(a: nat, j: nat, k: nat)
    requires 0 < j <= k
    ensures a / k <= a / j
  {
    DivBounds(a, j);
    DivBounds(a, k);
    if a / k > a / j {
      MulLe(a / j + 1, a / k, j);
      MulLe(j, k, a / k);
      assert false;
    }
  }

  /** What `addBoat` does: a returned boolean or a propagated exception. */
  datatype AddBoatResult = Added(player: Player, ok: bool) | AddThrew(error: PlaceError)

  /**
   * `addBoat`: when the board's `placeBoat` returns, whatever it returns,
   * the boat's size is added to the fleet cells; when it throws, the
   * exception propagates before the counter is touched.
   */
  function AddBoat(p: Player, boat: Boat, placed: PlaceOutcome): (r: AddBoatResult)
    ensures r.Added? <==> placed.Placed?
    ensures r.Added? ==>
      && r.ok == placed.ok
      && r.player.boatsPoints == p.boatsPoints + Size(boat.kind)
      && AgreeExcept(p, r.player, BoatsPoints)
    ensures r.AddThrew? ==> r.error == placed.error
  {
    match placed
    case Placed(ok) => Added(p.(boatsPoints := p.boatsPoints + Size(boat.kind)), ok)
    case PlaceThrew(e) => AddThrew(e)
  }
}

=== FILE: points.dfy ===
/**
 * A grid cell of the battleship board (`battleship.core.Point`): integer
 * coordinates, four one-way flags and the orientation of the boat the cell
 * belongs to. Every mutator of the Java class becomes a function returning
 * the updated cell.
 */
module Points {
  import opened Wrappers
  import Decimal

  datatype Orientation = Horizontal | Vertical

  datatype Point = Point(
    x: int,
    y: int,
    isOccupied: bool,
    isShot: bool,
    isEdge: bool,
    isFirst: bool,
    orientation: Option<Orientation>)  // None plays the role of Java's null

  /** The attributes of a point, used to say which one an operation touches. */
  datatype Field = X | Y | Occupied | Shot | Edge | First | OrientationField

  /** `q` agrees with `p` on every attribute except possibly `f`. */
  predicate AgreeExcept(p: Point, q: Point, f: Field) {
    && (f != X ==> q.x == p.x)
    && (f != Y ==> q.y == p.y)
    && (f != Occupied ==> q.isOccupied == p.isOccupied)
    && (f != Shot ==> q.isShot == p.isShot)
    && (f != Edge ==> q.isEdge == p.isEdge)
    && (f != First ==> q.isFirst == p.isFirst)
    && (f != OrientationField ==> q.orientation == p.orientation)
  }

  /** No flag raised and no orientation: the state of a newly built point. */
  predicate Blank(p: Point) {
    !p.isOccupied && !p.isShot && !p.isEdge && !p.isFirst && p.orientation == None
  }

  /** Every flag raised in `p` is still raised in `q`. */
  predicate FlagsKept(p: Point, q: Point) {
    && (p.isOccupied ==> q.isOccupied)
    && (p.isShot ==> q.isShot)
    && (p.isEdge ==> q.isEdge)
    && (p.isFirst ==> q.isFirst)
  }

  /** `new Point(x, y)`. */
  function NewPoint(x: int, y: int): (p: Point)
    ensures p.x == x && p.y == y
    ensures Blank(p)
  {
    Point(x, y, false, false, false, false, None)
  }

  /** `new Point()`: the origin, blank. */
  function Origin(): (p: Point)
    ensures p.x == 0 && p.y == 0
    ensures Blank(p)
  {
    Point(0, 0, false, false, false, false, None)
  }

  function SetX(p: Point, x: int): (r: Point)
    ensures r.x == x && AgreeExcept(p, r, X)
  {
    p.(x := x)
  }

  function SetY(p: Point, y: int): (r: Point)
    ensures r.y == y && AgreeExcept(p, r, Y)
  {
    p.(y := y)
  }

  function Occupy(p: Point): (r: Point)
    ensures r.isOccupied && AgreeExcept(p, r, Occupied)
  {
    p.(isOccupied := true)
  }

  /** Java's `shot()`: marks the point as fired upon. */
  function MarkShot(p: Point): (r: Point)
    ensures r.isShot && AgreeExcept(p, r, Shot)
  {
    p.(isShot := true)
  }

  function SetEdge(p: Point): (r: Point)
    ensures r.isEdge && AgreeExcept(p, r, Edge)
  {
    p.(isEdge := true)
  }

  function SetFirst(p: Point): (r: Point)
    ensures r.isFirst && AgreeExcept(p, r, First)
  {
    p.(isFirst := true)
  }

  function SetOrientation(p: Point, o: Option<Orientation>): (r: Point)
    ensures r.orientation == o && AgreeExcept(p, r, OrientationField)
  {
    p.(orientation := o)
  }

  /** Every public mutator of the Java class, as data. */
  datatype PointOp =
    | SetXOp(newX: int)
    | SetYOp(newY: int)
    | OccupyOp
    | ShotOp
    | SetEdgeOp
    | SetFirstOp
    | SetOrientationOp(newOrientation: Option<Orientation>)

  function Apply(p: Point, op: PointOp): Point {
    match op
    case SetXOp(x) => SetX(p, x)
    case SetYOp(y) => SetY(p, y)
    case OccupyOp => Occupy(p)
    case ShotOp => MarkShot(p)
    case SetEdgeOp => SetEdge(p)
    case SetFirstOp => SetFirst(p)
    case SetOrientationOp(o) => SetOrientation(p, o)
  }

  function ApplyAll(p: Point, ops: seq<PointOp>): Point
    decreases |ops|
  {
    if |ops| == 0 then p else ApplyAll(Apply(p, ops[0]), ops[1..])
  }

  /** Every mutator is idempotent: applying it a second time changes nothing. */
  lemma ApplyIdempotent(p: Point, op: PointOp)
    ensures Apply(Apply(p, op), op) == Apply(p, op)
  {
  }

  /** The flags are one-way: no sequence of mutator calls ever lowers one. */
  lemma {:induction false} FlagsNeverCleared(p: Point, ops: seq<PointOp>)
    ensures FlagsKept(p, ApplyAll(p, ops))
    decreases |ops|
  {
    if |ops| > 0 {
      var q := Apply(p, ops[0]);
      assert FlagsKept(p, q);
      FlagsNeverCleared(q, ops[1..]);
    }
  }

  /** A flag can be raised only by the one setter named after it. */
  lemma {:induction false} FlagRaisedOnlyBySetter(p: Point, ops: seq<PointOp>)
    ensures !p.isOccupied && ApplyAll(p, ops).isOccupied ==> OccupyOp in ops
    ensures !p.isShot && ApplyAll(p, ops).isShot ==> ShotOp in ops
    ensures !p.isEdge && ApplyAll(p, ops).isEdge ==> SetEdgeOp in ops
    ensures !p.isFirst && ApplyAll(p, ops).isFirst ==> SetFirstOp in ops
    decreases |ops|
  {
    if |ops| > 0 {
      FlagRaisedOnlyBySetter(Apply(p, ops[0]), ops[1..]);
    }
  }

  /** `toString`: "(" x ", " y ")". */
  function ToString(p: Point): (s: string)
    ensures s == "(" + Decimal.IntToString(p.x) + ", " + Decimal.IntToString(p.y) + ")"
    ensures ParsePoint(s) == Some((p.x, p.y))
  {
    var sx := Decimal.IntToString(p.x);
    var sy := Decimal.IntToString(p.y);
    var s := "(" + sx + ", " + sy + ")";
    assert s[1..|s| - 1] == sx + ", " + sy;
    SplitAtComma(sx, sy);
    s
  }

  /** Index of the first comma in `s`, or |s| when there is none. */
  function CommaIndex(s: string): (i: nat)
    ensures i <= |s|
    ensures forall k :: 0 <= k < i ==> s[k] != ','
    ensures i < |s| ==> s[i] == ','
  {
    if |s| == 0 then 0 else if s[0] == ',' then 0 else 1 + CommaIndex(s[1..])
  }

  /** The inverse of ToString: reads "(x, y)" back into its coordinates. */
  function ParsePoint(s: string): Option<(int, int)> {
    if |s| < 2 || s[0] != '(' || s[|s| - 1] != ')' then None
    else
      var inner := s[1..|s| - 1];
      var i := CommaIndex(inner);
      if i + 1 >= |inner| || inner[i + 1] != ' ' then None
      else
        match (Decimal.ParseInt(inner[..i]), Decimal.ParseInt(inner[i + 2..]))
        case (Some(x), Some(y)) => Some((x, y))
        case _ => None
  }

  lemma {:induction false} SplitAtComma(sx: string, sy: string)
    requires forall k :: 0 <= k < |sx| ==> sx[k] == '-' || Decimal.IsDigit(sx[k])
    ensures CommaIndex(sx + ", " + sy) == |sx|
    ensures (sx + ", " + sy)[..|sx|] == sx
    ensures (sx + ", " + sy)[|sx| + 2..] == sy
  {
    var t := sx + ", " + sy;
    assert t[|sx|] == ',';
  }
}

=== FILE: wrappers.dfy ===
/** Small value wrappers shared by the battleship model. */
module Wrappers {

  /** An optional value; stands in for a Java reference that may be null. */
  datatype Option<+T> = None | Some(value: T)
}
